=== FILE: README.md ===
# Verified model of the page-script decisions in `js/main.js`

`js/main.js` is the client-side script of a marketing site: navbar behaviour on
scroll, a mobile menu, a product category filter, a monthly/annual pricing
switch, number formatting for counters, form validation, a light/dark theme
switch, a dropdown hover delay, and the `debounce`/`throttle` helpers. Almost all
of it is DOM wiring, but each event handler makes a small, deterministic decision.
This project states each decision as a pure step function over an immutable
record of UI state with no DOM, and proves what the handlers promise about it.

One module per component:

| file | module | models |
|---|---|---|
| `js_string.dfy` | `JsString` | `undefined`-able values (`Option`), `split` on one character and its inverse `join`, the ECMAScript white-space set shared by `trim()` and `\s`, `trim()` |
| `navbar.dfy` | `Navbar` | `initNavbar` scroll handler: state `(lastScroll, scrolled, hidden)` |
| `mobile_menu.dfy` | `MobileMenu` | `initMobileMenu`: state `(menuActive, toggleActive, overflow)`, toggle and link clicks |
| `product_filter.dfy` | `ProductFilter` | `initProductFilter`: active tab and per-card visibility |
| `pricing.dfy` | `Pricing` | `initPricingToggle`: switch/labels flip, price markup, and a parser that reads the markup back |
| `format_number.dfy` | `FormatNumber` | tier selection of `formatNumber` and integer `toString` |
| `email.dfy` | `Email` | the e-mail regular expression, as its language and as an automaton, proved equal |
| `form_validation.dfy` | `FormValidation` | `validateForm`: per-control error flag and overall result |
| `theme.dfy` | `Theme` | `initThemeToggle`: start-up resolution and click toggle with persistence |
| `rate_limit.dfy` | `RateLimit` | `debounce` and `throttle` as discrete-event machines with a clock |
| `hover_intent.dfy` | `HoverIntent` | `initDropdownHoverIntent`: hide timers keyed by handle, one stored handle |
| `timeline.dfy` | `Timeline` | time order of event histories, shared by the two timer modules |

Modelling choices that a reader comparing with the script should know:

- Time is an explicit `now` field. Events are "call at `t`" or "time passes to
  `t`". Times never go backwards, which is a precondition of each step. Timers
  run between tasks, never inside one. A call or pointer event at `t` therefore
  finds every timer due strictly before `t` already fired. A timer due exactly
  at `t` fires first only when the history has time pass to `t` before the event.
  This applies to `RateLimit` and `HoverIntent` alike.
- `setTimeout` converts its delay to a signed 32-bit integer, wrapping modulo
  2^32, and treats a negative result as zero (`RateLimit.Delay`). The spacing
  properties are stated for this effective delay.
- Host-provided inputs become parameters: `window.pageYOffset` (a double,
  modelled as an integer offset; this is harmless because the scroll handler
  only compares offsets with each other and with 50 and 200), the stored theme and the `prefers-color-scheme: dark` result, and the
  one-decimal rendering `toFixed(1)` (`toFixed1: real -> string`).
- The model assumes `formatNumber` is given integers. The counter animation
  passes it `Math.floor(current)` or its `target`, and `target` is whatever the
  caller of `animateCounter` supplies.
- Attributes that may be missing are `Option<string>`. A present but empty
  `data-category` splits into one empty token, as `"".split(' ')` does.
- `trim()` and `\s` both use the ECMAScript WhiteSpace and LineTerminator set.
  `JsString.IsSpace` spells that set out.
- Facts about the script that the model keeps:
  - The last segment of the e-mail expression is `[^\s@]+`, so it excludes `@`
    as well as white space.
  - A price element is rewritten only when both values are present and non-empty.
    Missing either one leaves it alone.
  - Any non-empty stored theme string is applied at start-up, not only
    "light"/"dark".
  - A `mouseleave` does not clear the previously stored timer. Only one hide timer
    is live when enter and leave alternate (`AlternatingKeepsSingleTimer`). Two
    leaves in a row strand a timer (`LeaveTwiceStrandsTimer`).

## Model

| member | source | states |
|---|---|---|
| `Navbar.RunDecidedByLastTwo` | js/main.js:19-37 | after any non-empty history of scroll offsets: `scrolled` iff the latest offset > 50; `hidden` iff it is > 200 and greater than the offset before it; `lastScroll` is the latest offset |
| `Navbar.ReachableCoherent` | js/main.js:17-36 | from page load (`lastScroll = 0`) through any history, `scrolled` agrees with the remembered offset, and a hidden navbar is elevated and past 200 |
| `Navbar.NotDownwardShows` | js/main.js:30-34 | scrolling up or staying put shows the navbar; the same offset delivered twice never leaves it hidden |
| `MobileMenu.RunIsParityOfToggles` | js/main.js:46-58 | after any click history the menu is open (button active, body `overflow: hidden`) iff an odd number of toggle clicks followed the last link click, else fully closed |
| `MobileMenu.StepSynchronised` | js/main.js:46-58 | a toggle click locks scrolling iff the menu ends up open; a link click closes menu and button and clears overflow from any state; both keep menu, button and lock in agreement |
| `MobileMenu.ToggleTwiceRestores` | js/main.js:46-58 | on an agreeing state two toggle clicks undo each other; a link click is idempotent |
| `JsString.Split` | js/main.js:78 | `split(' ')` yields at least one piece and no piece holds the separator |
| `JsString.JoinSplit` | js/main.js:78 | joining the pieces of a split with the separator gives back the original string |
| `JsString.SplitJoin` | js/main.js:78 | splitting a join of separator-free pieces gives back the pieces |
| `JsString.Trim` | js/main.js:200 | `trim()` is the slice of the value left after cutting white space from both ends; it is empty iff every character is white space, and otherwise neither starts nor ends with white space |
| `JsString.TrimIdempotent` | js/main.js:200 | trimming twice is trimming once |
| `ProductFilter.ClickTab` | js/main.js:69-86 | after clicking tab `i`, exactly tab `i` is active; categories are unchanged; a card is visible iff the tab is "all" or its category is a token of the card's `data-category`; shown cards get the fade-in |
| `ProductFilter.ClickTabIdempotent` | js/main.js:69-86 | clicking the same tab again changes nothing |
| `ProductFilter.AllAndMissingCategory` | js/main.js:78-80 | the "all" tab selects every card; a card without `data-category` is selected only by "all" |
| `ProductFilter.SelectsTagSet` | js/main.js:78-80 | for a card whose attribute is its space-joined tags, a tab selects it iff the tab is "all" or one of the tags |
| `ProductFilter.DoubleSpaceYieldsEmptyToken` | js/main.js:78-80 | consecutive spaces create an empty token that a tab with an empty category matches |
| `Pricing.ParseRender` | js/main.js:153-155 | the written markup `$amount<span>/year</span>` or `$amount<span>/month</span>` reads back as exactly its period and amount |
| `Pricing.RenderParse` | js/main.js:153-155 | any markup that reads back is exactly the rendering of what it reads back to |
| `Pricing.Click` | js/main.js:142-157 | a click flips the switch and each present label; every element with both values non-empty then shows the newly selected period's amount; every other element and all data values are untouched |
| `Pricing.ClickTwiceRestores` | js/main.js:142-157 | once prices show the selected period, two clicks restore the state exactly; from any state the third click equals the first |
| `FormatNumber.DecimalRoundTrip` | js/main.js:191 | the digit-by-digit rendering of an integer, as `toString` prints a safe integer, parses back to the same integer, negatives included |
| `FormatNumber.ValueOfDigits` | js/main.js:191 | the decimal digits of a natural number evaluate back to it |
| `FormatNumber.FormatTiers` | js/main.js:181-192 | the output ends in B iff num ≥ 1e9, in M iff 1e6 ≤ num < 1e9, in K iff 1e3 ≤ num < 1e6, after the one-decimal rendering of num over that unit; below 1e3 it is a plain integer that parses back to num |
| `FormatNumber.FormatExamples` | js/main.js:181-192 | 2 500 000 000 gives the rendering of 2.5 then B, 1 200 gives that of 1.2 then K, and 42 gives "42" |
| `Email.MatchesEmailIffShape` | js/main.js:209-210 | the automaton accepts exactly the strings of the form: non-empty `[^\s@]` run, `@`, `[^\s@]` run holding a dot with a character on each side |
| `Email.RunClassifies` | js/main.js:209 | after any input the automaton is in the state the input's shape predicts |
| `Email.ShapeFacts` | js/main.js:209 | a matching string has no white space and exactly one `@`, after a non-empty local part |
| `Email.EmailExamples` | js/main.js:209-210 | "a@b.c" matches and "a@b" does not |
| `FormValidation.CheckControl` | js/main.js:199-214 | the trim check followed by the e-mail check leaves a control flagged iff its value is all white space, or it is an e-mail input whose value does not match |
| `FormValidation.ValidateForm` | js/main.js:195-218 | the result is true iff every required input/textarea is valid; each such control ends flagged iff invalid; other controls are untouched |
| `FormValidation.EmptyRequiredFails` | js/main.js:200-203 | a form holding a required field with an empty or white-space value is invalid |
| `Theme.Startup` | js/main.js:251-258 | a non-empty saved theme is applied; otherwise "dark" when the system prefers dark; otherwise the attribute is left as the markup set it; storage is not written |
| `Theme.Toggle` | js/main.js:261-267 | after a click the theme is "light" iff it was "dark" and "dark" otherwise (unset included), and the stored value equals the new theme |
| `Theme.ToggleTwice` | js/main.js:261-267 | two clicks from "light" or "dark" return to it; the third click repeats the first |
| `Theme.SavedOverridesSystem` | js/main.js:254-258 | with a saved theme the system preference makes no difference |
| `Theme.ReloadKeepsChoice` | js/main.js:251-266 | reloading after a click shows the theme the click chose, whatever the system preference |
| `RateLimit.DebounceInvoke` | js/main.js:314-321 | a call leaves exactly one pending call, carrying this call's arguments and due after the effective delay; the earlier pending call runs only if it was due strictly before the call, and is cancelled otherwise |
| `RateLimit.DebounceBurst` | js/main.js:319-320 | a second call no later than the first call's deadline cancels it: the second call runs nothing, so the first call's arguments never reach the wrapped function |
| `RateLimit.DebounceQuietFires` | js/main.js:315-318 | with no further calls, the pending call runs once at its deadline with its arguments as soon as time reaches that deadline |
| `RateLimit.DebounceSpaced` | js/main.js:312-322 | along any history, executions of the debounced function are at least the effective delay of `wait` apart |
| `RateLimit.DebounceZeroWaitBurst` | js/main.js:319-320 | with wait 0, two calls in one task run only the second, once its timer fires |
| `RateLimit.Delay` | js/main.js:320 | the effective delay is below 2^31 and equals the request for requests from 0 to 2^31 - 1 |
| `RateLimit.DelayWraps` | js/main.js:320 | requests differing by a multiple of 2^32 wait equally long; 2^31 and requests from -2^31 to -1 wait 0; 2^32 + 100 waits 100 |
| `RateLimit.DebounceExample` | js/main.js:312-322 | calls at 0, 10 and 20 with wait 30 run only the call made at 20, at 50 |
| `RateLimit.ThrottleInvoke` | js/main.js:326-331 | a call runs at once iff there is no window or its reset was due strictly before the call, and then opens a window of the effective delay of `limit`; a call inside the window is dropped and leaves the window's end unchanged |
| `RateLimit.ThrottleSpaced` | js/main.js:324-333 | along any history, executions of the throttled function are at least the effective delay of `limit` apart |
| `RateLimit.ThrottleExample` | js/main.js:324-333 | calls at 0, 10, 20, 35 with limit 30 run those at 0 and 35 only |
| `RateLimit.ThrottleZeroLimitBurst` | js/main.js:327-331 | with limit 0, a second call in the same task is dropped, while one made after the reset timer has run goes through |
| `HoverIntent.HoverElapse` | js/main.js:303-306 | as time passes, exactly the timers that have come due stop being live, and the dropdown becomes hidden if one of them fired and otherwise keeps its look |
| `HoverIntent.MouseEnter` | js/main.js:296-300 | entering finds only the timers due strictly before it fired, shows the dropdown and cancels the stored timer only; the other live timers, one due at that very instant included, keep their deadlines, and no handle is issued |
| `HoverIntent.MouseLeave` | js/main.js:302-307 | leaving issues exactly one fresh handle, stores it, and adds only its timer, due 150 ms later; earlier live timers stay live with their deadlines; the dropdown's look changes only if a timer was due strictly before the leave |
| `HoverIntent.AlternatingKeepsSingleTimer` | js/main.js:294-307 | when enter and leave alternate, at most the stored timer is live, and none while the pointer is inside |
| `HoverIntent.LeaveThenWait` | js/main.js:302-306 | after leaving, the dropdown keeps its look for under 150 ms and is hidden from 150 ms on |
| `HoverIntent.ReenterCancelsHide` | js/main.js:296-306 | re-entering within 150 ms, or at the deadline itself when the event is handled first, shows the dropdown and leaves no timer to hide it later |
| `HoverIntent.LeaveTwiceStrandsTimer` | js/main.js:297-303 | two leaves without an enter strand the first timer, which hides the dropdown after the next enter |
| `HoverIntent.EnterBeforeStrandedTimer` | js/main.js:296-305 | when an enter is handled at the instant a stranded timer falls due, the timer survives the enter's `clearTimeout` and then hides the hovered dropdown |
| `HoverIntent.StrandedTimerBeforeEnter` | js/main.js:296-305 | when the stranded timer runs first, the enter at that instant shows the dropdown and leaves no timer behind |

## Left out

- DOM querying, `addEventListener` wiring and the `DOMContentLoaded` bootstrap
  (js/main.js:4-12): these are plumbing. `initThemeToggle`, `initLazyLoading` and
  `initDropdownHoverIntent` are never called by that bootstrap. The model covers
  the functions, not the wiring.
- Missing elements: the handlers' `if (toggle && menu)`/`if (toggle)` guards only
  decide whether a handler is attached at all. The models describe the handlers
  once attached. Absent pricing labels are modelled (`Option<bool>`).
- Scroll reveal and lazy loading (js/main.js:92-113, 272-287): these are
  IntersectionObserver callbacks.
- Smooth scroll (js/main.js:116-132): it depends on layout geometry and
  fractional offsets.
- `animateCounter` (js/main.js:163-179): it uses floating-point increments and
  `requestAnimationFrame` scheduling.
- `FormatNumber.FormatTiers`: the one-decimal `toFixed(1)` rendering is a
  parameter, and the scaled value is the exact rational quotient. Binary
  floating-point division and rounding are not modelled. The number is an
  integer, so NaN and fractional inputs are out of scope. Below 1e3 the plain
  integer agrees with JavaScript only for safe integers. For example,
  −1e21 prints as "-1e+21".
- FormatNumber.DecimalRoundTrip: the rendering writes every digit. JavaScript's
  `toString` agrees only for safe integers (magnitude below 2^53). Beyond that
  it prints the shortest digits that identify the double, and from 1e21 on it
  uses exponent form. Double-precision numbers are not modelled.
- RateLimit.ThrottleSpaced: assumes the throttled function returns normally. If
  it throws, `inThrottle` is never set and no reset timer is scheduled. The next
  call then runs at once, closer than `limit`. It also assumes the function does
  not call the throttled wrapper itself. Such a re-entrant call comes before
  `inThrottle` is set, so it runs as well, at the same instant. Exceptions and
  re-entrant calls are not modelled.
- RateLimit.DebounceInvoke: records the arguments of each execution but not the
  receiver. `debounce` calls the function without forwarding `this`, while
  `throttle` forwards it. Receivers are not modelled.
- Theme.Toggle: assumes local storage is usable. If writing the theme throws,
  the attribute has changed but the stored value has not. If reading it throws
  at start-up (`Theme.Startup`), the click handler is never attached. Storage
  failures are not modelled.
- `showToast` and `copyToClipboard` (js/main.js:221-245): timers plus DOM nodes,
  and a foreign promise API.
- `fetchAPI` (js/main.js:336-355): a network wrapper.
- `trackEvent` and the CTA wiring (js/main.js:358-376): they call an external
  `gtag` and `console`.
- The module export block (js/main.js:379-387).
- The fade-in animation string and the navbar transform strings are modelled as
  booleans (`fadeIn`, `hidden`). The pricing markup and the overflow value are
  modelled as exact strings.
- `HoverIntent.HoverElapse`: timers that fall due together fire as one step.
  Every hide timer does the same thing, so their order does not matter.
- Timers run exactly at their deadline. The 4 ms clamp on deeply nested timers,
  throttling of background tabs and late timer delivery are not modelled.

=== FILE: email.dfy ===
/** The e-mail check of `validateForm` (js/main.js), the regular expression
    `/^[^\s@]+@[^\s@]+\.[^\s@]+$/`. It is modelled twice: as the language the
    expression denotes (`EmailShape`) and as a left-to-right automaton that
    decides it (`MatchesEmail`), and the two are proved to agree. */
module Email {
  import opened JsString

  /** A character of the class `[^\s@]`. A dot is one of them. */
  predicate Plain(c: char)
  {
    !IsSpace(c) && c != '@'
  }

  predicate AllPlain(t: string)
  {
    forall i :: 0 <= i < |t| ==> Plain(t[i])
  }

  /** A dot with at least one character before it and one after it. */
  predicate HasInnerDot(d: string)
  {
    exists k :: 0 < k < |d| - 1 && d[k] == '.'
  }

  /** The strings the expression matches: a non-empty run of class characters,
      an `@`, then class characters that contain an inner dot. Since `@` is not
      a class character, `p` is the only `@`. */
  predicate EmailShape(s: string)
  {
    exists p :: 0 < p < |s| && s[p] == '@' && AllPlain(s[..p])
                && AllPlain(s[p + 1..]) && HasInnerDot(s[p + 1..])
  }

  /** Automaton states: nothing read; inside the local part; just after `@`;
      inside the domain without a usable dot yet; just after a dot that has a
      domain character before it; an inner dot seen; no match possible. */
  datatype MatchState = Start | Local | AfterAt | Host | HostDot | Complete | Reject

  function Next(q: MatchState, c: char): MatchState
  {
    match q
    case Start => if Plain(c) then Local else Reject
    case Local => if Plain(c) then Local else if c == '@' then AfterAt else Reject
    case AfterAt => if Plain(c) then Host else Reject
    case Host => if c == '.' then HostDot else if Plain(c) then Host else Reject
    case HostDot => if Plain(c) then Complete else Reject
    case Complete => if Plain(c) then Complete else Reject
    case Reject => Reject
  }

  /** The automaton's state after reading `s` from the left. */
  function Run(s: string): MatchState
  {
    if |s| == 0 then Start else Next(Run(s[..|s| - 1]), s[|s| - 1])
  }

  /** `emailRegex.test(s)`. */
  predicate MatchesEmail(s: string)
  {
    Run(s) == Complete
  }

  // ------------------------------------------------------ correctness proof

  /** `t` splits as a plain local part, `@`, and a plain (possibly empty) rest. */
  ghost predicate SplitsAt(t: string, p: int)
  {
    0 < p < |t| && t[p] == '@' && AllPlain(t[..p]) && AllPlain(t[p + 1..])
  }

  lemma SplitUnique(t: string, p: int, q: int)
    requires SplitsAt(t, p) && SplitsAt(t, q)
    ensures p == q
  {
  }

  /** The state a plain domain part leads to, read off its shape. */
  ghost function HostState(d: string): MatchState
  {
    if |d| == 0 then AfterAt
    else if HasInnerDot(d) then Complete
    else if |d| >= 2 && d[|d| - 1] == '.' then HostDot
    else Host
  }

  /** The state any prefix leads to, read off its shape. */
  ghost function Classify(t: string): MatchState
  {
    if |t| == 0 then Start
    else if AllPlain(t) then Local
    else if exists p :: SplitsAt(t, p) then
      var p :| SplitsAt(t, p);
      HostState(t[p + 1..])
    else Reject
  }

  lemma HostNext(d: string, c: char)
    requires AllPlain(d) && Plain(c)
    ensures HostState(d + [c]) == Next(HostState(d), c)
  {
    var e := d + [c];
    if |d| == 0 {
      assert !HasInnerDot(e);
    } else if HasInnerDot(d) {
      var k :| 0 < k < |d| - 1 && d[k] == '.';
      assert e[k] == '.';
    } else if |d| >= 2 && d[|d| - 1] == '.' {
      assert e[|d| - 1] == '.';
    } else {
      assert !HasInnerDot(e) by {
        if k :| 0 < k < |e| - 1 && e[k] == '.' {
          assert false;
        }
      }
    }
  }

  lemma NextFromStart(c: char)
    ensures Classify([c]) == Next(Classify([]), c)
  {
    var u := [c];
    if Plain(c) {
      assert AllPlain(u);
    } else {
      assert !AllPlain(u) by { assert !Plain(u[0]); }
    }
  }

  lemma NextFromLocal(t: string, c: char)
    requires |t| > 0 && AllPlain(t)
    ensures Classify(t + [c]) == Next(Classify(t), c)
  {
    var u := t + [c];
    assert u[..|t|] == t;
    if Plain(c) {
      assert AllPlain(u);
    } else if c == '@' {
      assert u[|t| + 1..] == [];
      assert SplitsAt(u, |t|);
      var p :| SplitsAt(u, p);
      SplitUnique(u, p, |t|);
    } else {
      assert !AllPlain(u) by { assert !Plain(u[|t|]); }
      forall q | 0 < q < |u| ensures !SplitsAt(u, q) {
        if q < |t| {
          assert u[q] == t[q];
        }
      }
    }
  }

  lemma NextFromHost(t: string, p: int, c: char)
    requires SplitsAt(t, p) && Classify(t) == HostState(t[p + 1..])
    ensures Classify(t + [c]) == Next(Classify(t), c)
  {
    var u := t + [c];
    var d := t[p + 1..];
    assert !AllPlain(u) by { assert !Plain(u[p]); }
    if Plain(c) {
      assert u[..p] == t[..p];
      assert u[p + 1..] == d + [c];
      assert SplitsAt(u, p);
      var q :| SplitsAt(u, q);
      SplitUnique(u, p, q);
      HostNext(d, c);
    } else {
      assert !AllPlain(t) by { assert !Plain(t[p]); }
      forall q | 0 < q < |u| ensures !SplitsAt(u, q) {
        if q < |t| {
          var rest := u[q + 1..];
          assert rest[|rest| - 1] == c;
        } else {
          assert u[..q] == t;
        }
      }
    }
  }

  lemma NextFromReject(t: string, c: char)
    requires |t| > 0 && !AllPlain(t) && !(exists p :: SplitsAt(t, p))
    ensures Classify(t + [c]) == Next(Classify(t), c)
  {
    var u := t + [c];
    assert !AllPlain(u) by {
      var i :| 0 <= i < |t| && !Plain(t[i]);
      assert u[i] == t[i];
    }
    forall q | 0 < q < |u| ensures !SplitsAt(u, q) {
      if q == |t| {
        assert u[..q] == t;
      } else {
        assert u[q] == t[q];
        assert u[..q] == t[..q];
        assert t[q + 1..] == u[q + 1..][..|u[q + 1..]| - 1];
        assert !SplitsAt(t, q);
      }
    }
  }

  /** One more character moves the shape-predicted state exactly as the automaton does. */
  lemma ClassifyNext(t: string, c: char)
    ensures Classify(t + [c]) == Next(Classify(t), c)
  {
    if |t| == 0 {
      assert t + [c] == [c];
      NextFromStart(c);
    } else if AllPlain(t) {
      NextFromLocal(t, c);
    } else if exists p :: SplitsAt(t, p) {
      var p :| SplitsAt(t, p) && Classify(t) == HostState(t[p + 1..]);
      NextFromHost(t, p, c);
    } else {
      NextFromReject(t, c);
    }
  }

  /** Reading any string drives the automaton to the state its shape predicts. */
  lemma {:induction false} RunClassifies(t: string)
    ensures Run(t) == Classify(t)
  {
    if |t| > 0 {
      var init := t[..|t| - 1];
      RunClassifies(init);
      ClassifyNext(init, t[|t| - 1]);
      assert init + [t[|t| - 1]] == t;
    }
  }

  /** The automaton accepts exactly the strings the regular expression matches. */
  lemma MatchesEmailIffShape(s: string)
    ensures MatchesEmail(s) <==> EmailShape(s)
  {
    RunClassifies(s);
    if EmailShape(s) {
      var p :| 0 < p < |s| && s[p] == '@' && AllPlain(s[..p])
                && AllPlain(s[p + 1..]) && HasInnerDot(s[p + 1..]);
      assert SplitsAt(s, p);
      assert !AllPlain(s) by { assert !Plain(s[p]); }
      var q :| SplitsAt(s, q);
      SplitUnique(s, p, q);
    }
    if Classify(s) == Complete {
      assert !AllPlain(s);
      var p :| SplitsAt(s, p) && Classify(s) == HostState(s[p + 1..]);
      assert HasInnerDot(s[p + 1..]);
    }
  }

  /** A matching address holds no white space and exactly one `@`, with a
      non-empty local part before it. */
  lemma ShapeFacts(s: string)
    requires EmailShape(s)
    ensures forall i :: 0 <= i < |s| ==> !IsSpace(s[i])
    ensures exists p :: 0 < p < |s| && s[p] == '@' && forall i :: 0 <= i < |s| && s[i] == '@' ==> i == p
  {
    var p :| 0 < p < |s| && s[p] == '@' && AllPlain(s[..p])
              && AllPlain(s[p + 1..]) && HasInnerDot(s[p + 1..]);
    forall i | 0 <= i < |s| ensures !IsSpace(s[i]) && (s[i] == '@' ==> i == p) {
      if i < p {
        assert s[..p][i] == s[i];
      } else if i > p {
        assert s[p + 1..][i - p - 1] == s[i];
      }
    }
  }

  /** "a@b.c" is accepted and "a@b" (no dot segment) is not. */
  lemma EmailExamples()
    ensures MatchesEmail("a@b.c")
    ensures !MatchesEmail("a@b")
  {
    MatchesEmailIffShape("a@b.c");
    var s := "a@b.c";
    assert s[..1] == "a" && s[2..] == "b.c";
    assert "b.c"[1] == '.';
    assert SplitsAt(s, 1);
    MatchesEmailIffShape("a@b");
    var t := "a@b";
    assert !EmailShape(t) by {
      if p :| 0 < p < |t| && t[p] == '@' && AllPlain(t[..p])
               && AllPlain(t[p + 1..]) && HasInnerDot(t[p + 1..]) {
        assert false;
      }
    }
  }
}

=== FILE: form_validation.dfy ===
/** `validateForm` (js/main.js): every required `input` or `textarea` of a form
    is flagged with the `error` class when its trimmed value is empty, or when it
    is an e-mail input whose value does not match the e-mail expression; the
    result is true iff no such control was flagged. */
module FormValidation {
  import opened JsString
  import opened Email

  /** The element kinds the selector `input[required], textarea[required]` can
      pick, and everything else a form holds. */
  datatype Tag = Input | TextArea | OtherControl

  /** A form control: its element kind, `required` attribute, `type` property,
      current value, and whether it carries the `error` class. */
  datatype Control = Control(tag: Tag, required: bool, inputType: string, value: string, error: bool)

  /** The controls the selector picks. */
  predicate Checked(c: Control)
  {
    c.required && (c.tag == Input || c.tag == TextArea)
  }

  /** `input.type === 'email'`; a text area's type is "textarea". */
  predicate IsEmailField(c: Control)
  {
    c.tag == Input && c.inputType == "email"
  }

  /** Reference validity of one control: its value is not all white space, and an
      e-mail input's value matches the e-mail expression (whose language
      `EmailShape` describes, by `MatchesEmailIffShape`). */
  predicate FieldValid(c: Control)
  {
    !Blank(c.value) && (IsEmailField(c) ==> MatchesEmail(c.value))
  }

  /** The two checks of the loop body, in the source's order: the emptiness check
      sets or clears the flag, then the e-mail check (for a non-empty value) can
      only set it. Returns the control with its final flag. */
  function CheckControl(c: Control): (r: Control)
    ensures r == c.(error := !FieldValid(c))
  {
    var afterEmpty := c.(error := Trim(c.value) == []);
    var r :=
      if IsEmailField(c) && c.value != [] && !MatchesEmail(c.value) then afterEmpty.(error := true)
      else afterEmpty;
    r
  }

  /** A control the form does not hold against the result: unchecked, or valid. */
  predicate Passes(c: Control)
  {
    Checked(c) ==> FieldValid(c)
  }

  /** The control as the loop leaves it. */
  function Expected(c: Control): Control
  {
    if Checked(c) then c.(error := !FieldValid(c)) else c
  }

  /** One loop iteration's effect on a control, and whether it flags the form. */
  lemma CheckedStep(c: Control)
    ensures Checked(c) ==> CheckControl(c) == Expected(c) && (CheckControl(c).error <==> !Passes(c))
    ensures !Checked(c) ==> c == Expected(c) && Passes(c)
  {
  }

  /** Runs the checks over the controls in document order. The result is true iff
      every checked control is valid, each checked control ends flagged exactly
      when it is invalid, and every other control is left as it was. */
  method ValidateForm(form: seq<Control>) returns (valid: bool, after: seq<Control>)
    ensures |after| == |form|
    ensures valid <==> forall i :: 0 <= i < |form| ==> Passes(form[i])
    ensures forall i :: 0 <= i < |form| ==> after[i] == Expected(form[i])
  {
    valid := true;
    after := [];
    var i := 0;
    while i < |form|
      invariant 0 <= i <= |form|
      invariant |after| == i
      invariant valid <==> forall j :: 0 <= j < i ==> Passes(form[j])
      invariant forall j :: 0 <= j < i ==> after[j] == Expected(form[j])
    {
      var c := form[i];
      CheckedStep(c);
      if Checked(c) {
        c := CheckControl(c);
        if c.error {
          valid := false;
        }
      }
      after := after + [c];
      i := i + 1;
    }
  }

  /** A required field whose value is empty or only white space fails validation,
      whatever else the form holds. */
  method EmptyRequiredFails(form: seq<Control>, k: nat) returns (valid: bool)
    requires k < |form| && Checked(form[k]) && Blank(form[k].value)
    ensures !valid
  {
    var after;
    valid, after := ValidateForm(form);
    assert !Passes(form[k]);
  }
}

=== FILE: format_number.dfy ===
/** `formatNumber` (js/main.js), for integer arguments:
    at least a billion, a million or a thousand are scaled and suffixed with B, M
    or K after one-decimal rendering; anything smaller (negatives included) is
    written as a plain decimal integer, as JavaScript prints safe integers
    (magnitude below 2^53). The one-decimal rendering
    (`Number.prototype.toFixed(1)`) is a parameter of the model. */
module FormatNumber {
  import opened JsString

  datatype Tier = Billions | Millions | Thousands | Units

  const Billion: int := 1_000_000_000
  const Million: int := 1_000_000
  const Thousand: int := 1_000

  /** The first threshold, from the largest down, that `num` reaches. */
  function TierOf(num: int): Tier
  {
    if num >= Billion then Billions
    else if num >= Million then Millions
    else if num >= Thousand then Thousands
    else Units
  }

  function Scale(t: Tier): int
  {
    match t
    case Billions => Billion
    case Millions => Million
    case Thousands => Thousand
    case Units => 1
  }

  function Letter(t: Tier): char
    requires t != Units
  {
    match t
    case Billions => 'B'
    case Millions => 'M'
    case Thousands => 'K'
  }

  // ------------------------------------------------------ integer toString

  predicate IsDigit(c: char)
  {
    '0' <= c <= '9'
  }

  function DigitChar(d: nat): (c: char)
    requires d < 10
    ensures IsDigit(c)
  {
    "0123456789"[d]
  }

  function DigitValue(c: char): nat
    requires IsDigit(c)
  {
    (c - '0') as nat
  }

  /** Decimal digits of a natural number, most significant first, no leading zero. */
  function Digits(n: nat): (s: string)
    ensures |s| >= 1
    ensures forall i :: 0 <= i < |s| ==> IsDigit(s[i])
    ensures |s| > 1 ==> s[0] != '0'
  {
    if n < 10 then [DigitChar(n)]
    else Digits(n / 10) + [DigitChar(n % 10)]
  }

  /** `num.toString()` for an integer, written out digit by digit. This is what
      JavaScript prints for safe integers (magnitude below 2^53). */
  function DecimalString(n: int): string
  {
    if n < 0 then "-" + Digits(-n) else Digits(n)
  }

  /** The value of a string of decimal digits. */
  function ValueOf(s: string): nat
    requires forall i :: 0 <= i < |s| ==> IsDigit(s[i])
  {
    if |s| == 0 then 0
    else 10 * ValueOf(s[..|s| - 1]) + DigitValue(s[|s| - 1])
  }

  /** Reads an optionally negative decimal integer; `None` for anything else. */
  function ParseDecimal(s: string): Option<int>
  {
    if |s| >= 2 && s[0] == '-' && (forall i :: 1 <= i < |s| ==> IsDigit(s[i])) then
      var magnitude: int := ValueOf(s[1..]);
      Some(-magnitude)
    else if |s| >= 1 && (forall i :: 0 <= i < |s| ==> IsDigit(s[i])) then
      Some(ValueOf(s))
    else None
  }

  lemma DigitRoundTrip(d: nat)
    requires d < 10
    ensures DigitValue(DigitChar(d)) == d
  {
  }

  /** Reading the digits back gives the number. */
  lemma {:induction false} ValueOfDigits(n: nat)
    ensures ValueOf(Digits(n)) == n
  {
    if n >= 10 {
      ValueOfDigits(n / 10);
      var s := Digits(n);
      assert s[..|s| - 1] == Digits(n / 10);
      DigitRoundTrip(n % 10);
    } else {
      DigitRoundTrip(n);
    }
  }

  /** The integer rendering is a round trip: it parses back to the same integer. */
  lemma DecimalRoundTrip(n: int)
    ensures ParseDecimal(DecimalString(n)) == Some(n)
  {
    var s := DecimalString(n);
    if n < 0 {
      var digits := Digits(-n);
      ValueOfDigits(-n);
      assert s == "-" + digits;
      assert s[1..] == digits;
      assert forall i :: 1 <= i < |s| ==> s[i] == digits[i - 1];
      assert s[0] == '-';
    } else {
      ValueOfDigits(n);
      assert !IsDigit('-');
    }
  }

  // ------------------------------------------------------ formatNumber

  /** `formatNumber(num)`, with `toFixed1(x)` standing for `x.toFixed(1)`. The
      scaled value is the exact quotient. */
  function Format(num: int, toFixed1: real -> string): string
  {
    match TierOf(num)
    case Units => DecimalString(num)
    case t => toFixed1(num as real / Scale(t) as real) + [Letter(t)]
  }

  /** The tier is read off the output: its last character is B, M or K exactly
      when `num` reaches a billion, a million or a thousand (largest first), each
      preceded by the one-decimal rendering of `num` divided by that unit; below
      a thousand the output is a plain integer that parses back to `num`. */
  lemma FormatTiers(num: int, toFixed1: real -> string)
    ensures var out := Format(num, toFixed1);
            && |out| >= 1
            && (out[|out| - 1] == 'B' <==> num >= Billion)
            && (out[|out| - 1] == 'M' <==> Million <= num < Billion)
            && (out[|out| - 1] == 'K' <==> Thousand <= num < Million)
            && (num >= Thousand ==>
                  out == toFixed1(num as real / Scale(TierOf(num)) as real) + [Letter(TierOf(num))])
            && (num < Thousand ==> ParseDecimal(out) == Some(num))
  {
    var out := Format(num, toFixed1);
    if num < Thousand {
      DecimalRoundTrip(num);
      var digits := if num < 0 then Digits(-num) else Digits(num);
      assert out[|out| - 1] == digits[|digits| - 1];
    }
  }

  /** The three worked examples: 2 500 000 000 renders as the one-decimal form of
      2.5 followed by B, 1 200 as that of 1.2 followed by K, and 42 as "42". */
  lemma FormatExamples(toFixed1: real -> string)
    ensures Format(2_500_000_000, toFixed1) == toFixed1(2.5) + "B"
    ensures Format(1_200, toFixed1) == toFixed1(1.2) + "K"
    ensures Format(42, toFixed1) == "42"
  {
    assert Digits(4) == "4";
    assert Digits(42) == Digits(4) + "2";
  }
}

=== FILE: hover_intent.dfy ===
/** `initDropdownHoverIntent` (js/main.js) for one dropdown nav item: entering
    cancels the stored hide timer and shows the dropdown; leaving schedules a hide
    150 ms later and stores that timer's handle in the same variable, without
    clearing whatever timer the variable held before. */
module HoverIntent {
  import opened JsString
  import opened Timeline

  /** Delay between leaving the item and hiding its dropdown. */
  const HideDelay: int := 150

  /** The clock; the dropdown's inline opacity/visibility (`None` until a handler
      first writes it, then `Some(true)` for `1`/`visible` and `Some(false)` for
      `0`/`hidden`); the live hide timers by handle with the time each fires; the
      handle stored in the closure's `timeout` variable; the next fresh handle. */
  datatype Dropdown = Dropdown(now: int, shown: Option<bool>, timers: map<nat, int>, handle: Option<nat>, nextId: nat)

  function NewDropdown(now: int): Dropdown
  {
    Dropdown(now, None, map[], None, 0)
  }

  /** The clock moves to `t`, and every timer due strictly before `cutoff` fires
      (each one hides the dropdown) and stops being live. */
  function FireBefore(d: Dropdown, t: int, cutoff: int): (r: Dropdown)
    requires d.now <= t
    ensures r.now == t && r.handle == d.handle && r.nextId == d.nextId
    ensures forall id :: id in r.timers <==> id in d.timers && d.timers[id] >= cutoff
    ensures forall id :: id in r.timers ==> r.timers[id] == d.timers[id]
  {
    var due := exists id :: id in d.timers && d.timers[id] < cutoff;
    d.(now := t,
       timers := map id | id in d.timers && d.timers[id] >= cutoff :: d.timers[id],
       shown := if due then Some(false) else d.shown)
  }

  /** Time passes to `t`: every timer that has come due fires (each one hides the
      dropdown) and stops being live. */
  function HoverElapse(d: Dropdown, t: int): (r: Dropdown)
    requires d.now <= t
    ensures r.now == t && r.handle == d.handle && r.nextId == d.nextId
    ensures forall id :: id in r.timers <==> id in d.timers && d.timers[id] > t
    ensures forall id :: id in r.timers ==> r.timers[id] == d.timers[id]
    ensures r.shown == if exists id :: id in d.timers && d.timers[id] <= t then Some(false) else d.shown
  {
    FireBefore(d, t, t + 1)
  }

  /** `mouseenter` at `t`. Timers run between tasks, so every timer due strictly
      before `t` has fired, while one due at `t` itself is still live unless the
      history let time pass to `t` first. `clearTimeout(timeout)` then cancels
      only the stored timer, and the dropdown is shown. */
  function MouseEnter(d: Dropdown, t: int): (r: Dropdown)
    requires d.now <= t
    ensures r.shown == Some(true) && r.handle == d.handle && r.now == t && r.nextId == d.nextId
    ensures d.handle.Some? ==> d.handle.value !in r.timers
    ensures forall id :: id in r.timers <==>
              id in d.timers && d.timers[id] >= t && d.handle != Some(id)
    ensures forall id :: id in r.timers ==> r.timers[id] == d.timers[id]
  {
    var e := FireBefore(d, t, t);
    e.(timers := if e.handle.Some? then e.timers - {e.handle.value} else e.timers,
       shown := Some(true))
  }

  /** `mouseleave` at `t`: a new hide timer for `t + 150` whose handle overwrites
      the stored one; earlier timers that have not fired stay live, and the
      dropdown's look changes only if one of them was due strictly before `t`. */
  function MouseLeave(d: Dropdown, t: int): (r: Dropdown)
    requires d.now <= t
    requires forall id :: id in d.timers ==> id < d.nextId
    ensures r.handle == Some(d.nextId) && r.now == t && r.nextId == d.nextId + 1
    ensures r.shown == if exists id :: id in d.timers && d.timers[id] < t then Some(false) else d.shown
    ensures d.nextId in r.timers && r.timers[d.nextId] == t + HideDelay
    ensures forall id :: id in r.timers <==> id == d.nextId || (id in d.timers && d.timers[id] >= t)
    ensures forall id :: id in d.timers && d.timers[id] >= t ==> id in r.timers && r.timers[id] == d.timers[id]
    ensures forall id :: id in r.timers ==> id < r.nextId
  {
    var e := FireBefore(d, t, t);
    e.(timers := e.timers[e.nextId := t + HideDelay],
       handle := Some(e.nextId),
       nextId := e.nextId + 1)
  }

  /** Handles are never reused, and the stored one was issued. */
  predicate Fresh(d: Dropdown)
  {
    && (forall id :: id in d.timers ==> id < d.nextId)
    && (d.handle.Some? ==> d.handle.value < d.nextId)
  }

  /** At most one timer is live, and it is the stored one. */
  predicate SingleTimer(d: Dropdown)
  {
    forall id :: id in d.timers ==> d.handle == Some(id)
  }

  datatype PointerEvent = Enter(at: int) | Leave(at: int) | Wait(at: int)

  function Apply(d: Dropdown, e: PointerEvent): Dropdown
    requires d.now <= e.at && Fresh(d)
  {
    match e
    case Enter(t) => MouseEnter(d, t)
    case Leave(t) => MouseLeave(d, t)
    case Wait(t) => HoverElapse(d, t)
  }

  /** When a pointer event happens. */
  function PointerTime(e: PointerEvent): int
  {
    e.at
  }

  /** A history in time order, none of it before `now`. */
  predicate Timely(now: int, events: seq<PointerEvent>)
  {
    Chronological(now, Times(events, PointerTime))
  }

  lemma ApplyFresh(d: Dropdown, e: PointerEvent)
    requires d.now <= e.at && Fresh(d)
    ensures Fresh(Apply(d, e)) && Apply(d, e).now == e.at
  {
  }

  /** The dropdown after a timely history of pointer events. */
  function Replay(d: Dropdown, events: seq<PointerEvent>): (r: Dropdown)
    requires Fresh(d) && Timely(d.now, events)
    ensures Fresh(r)
    ensures r.now == if |events| == 0 then d.now else events[|events| - 1].at
  {
    if |events| == 0 then d
    else
      EventsPrefix(d.now, events, PointerTime);
      var before := Replay(d, events[..|events| - 1]);
      ApplyFresh(before, events[|events| - 1]);
      Apply(before, events[|events| - 1])
  }

  /** The pointer's last crossing was a `mouseleave`. */
  predicate EndsOutside(events: seq<PointerEvent>)
  {
    if |events| == 0 then false
    else if events[|events| - 1].Leave? then true
    else if events[|events| - 1].Enter? then false
    else EndsOutside(events[..|events| - 1])
  }

  /** `mouseenter` and `mouseleave` alternate: no `mouseleave` while already outside. */
  predicate Alternating(events: seq<PointerEvent>)
  {
    if |events| == 0 then true
    else
      && Alternating(events[..|events| - 1])
      && (events[|events| - 1].Leave? ==> !EndsOutside(events[..|events| - 1]))
  }

  /** When entering and leaving alternate, starting from a fresh item, only the
      stored timer is ever live, and none is live while the pointer is inside:
      the handle overwrite loses nothing. */
  lemma {:induction false} AlternatingKeepsSingleTimer(now: int, events: seq<PointerEvent>)
    requires Timely(now, events) && Alternating(events)
    ensures SingleTimer(Replay(NewDropdown(now), events))
    ensures !EndsOutside(events) ==> Replay(NewDropdown(now), events).timers == map[]
  {
    if |events| > 0 {
      EventsPrefix(now, events, PointerTime);
      var prefix := events[..|events| - 1];
      AlternatingKeepsSingleTimer(now, prefix);
      var before := Replay(NewDropdown(now), prefix);
      var r := Replay(NewDropdown(now), events);
      var e := events[|events| - 1];
      match e
      case Leave(t) =>
        assert before.timers == map[];
        assert r.timers.Keys == {before.nextId};
      case Enter(t) =>
        assert r.timers.Keys == {};
      case Wait(t) =>
    }
  }

  /** Leaving and staying away: the dropdown keeps its look until 150 ms have
      passed and is hidden from then on. */
  lemma LeaveThenWait(d: Dropdown, t: int, later: int)
    requires Fresh(d) && d.now <= t <= later && d.timers == map[]
    ensures var r := HoverElapse(MouseLeave(d, t), later);
            && (later < t + HideDelay ==> r.shown == d.shown && r.timers.Keys == {d.nextId})
            && (later >= t + HideDelay ==> r.shown == Some(false) && r.timers == map[])
  {
    var m := MouseLeave(d, t);
    assert m.timers.Keys == {d.nextId};
  }

  /** Coming back within 150 ms (at the deadline itself, when the pointer event
      is handled before the timer) cancels the hide: the dropdown is shown and no
      timer is left to hide it, however long the pointer then stays. */
  lemma ReenterCancelsHide(d: Dropdown, t1: int, t2: int, later: int)
    requires Fresh(d) && d.now <= t1 <= t2 <= later && t2 <= t1 + HideDelay && d.timers == map[]
    ensures var r := MouseEnter(MouseLeave(d, t1), t2);
            && r.shown == Some(true) && r.timers == map[]
            && HoverElapse(r, later).shown == Some(true)
  {
    var m := MouseLeave(d, t1);
    assert m.timers.Keys == {d.nextId};
  }

  /** Two `mouseleave`s without a `mouseenter` between them strand the first timer:
      the next `mouseenter` cancels only the second, and the first still hides the
      dropdown while the pointer is over it. */
  lemma LeaveTwiceStrandsTimer()
    ensures var d := MouseEnter(MouseLeave(MouseLeave(NewDropdown(0), 0), 10), 20);
            && d.shown == Some(true)
            && HoverElapse(d, 150).shown == Some(false)
  {
    var a := MouseLeave(NewDropdown(0), 0);
    assert a.timers == map[0 := 150];
    var b := MouseLeave(a, 10);
    assert b.timers == map[0 := 150, 1 := 160];
    var c := MouseEnter(b, 20);
    assert c.timers == map[0 := 150];
  }

  /** Two `mouseleave`s, at 0 and at 10, without a `mouseenter` between them. */
  function TwoLeaves(): Dropdown
  {
    MouseLeave(MouseLeave(NewDropdown(0), 0), 10)
  }

  lemma TwoLeavesTimers()
    ensures TwoLeaves() == Dropdown(10, None, map[0 := 150, 1 := 160], Some(1), 2)
  {
    var a := MouseLeave(NewDropdown(0), 0);
    assert a.timers == map[0 := 150];
    assert TwoLeaves().timers == map[0 := 150, 1 := 160];
  }

  /** The first timer of `TwoLeaves` falls due at 150. If a `mouseenter` at 150 is
      handled before that timer runs, the timer survives the `clearTimeout` of the
      other handle and then hides the hovered dropdown. */
  lemma EnterBeforeStrandedTimer()
    ensures MouseEnter(TwoLeaves(), 150).shown == Some(true)
    ensures MouseEnter(TwoLeaves(), 150).timers == map[0 := 150]
    ensures HoverElapse(MouseEnter(TwoLeaves(), 150), 150).shown == Some(false)
  {
    TwoLeavesTimers();
    var e := MouseEnter(TwoLeaves(), 150);
    assert e.timers == map[0 := 150];
    assert 0 in e.timers && e.timers[0] <= 150;
  }

  /** If instead the timer runs first, the `mouseenter` at 150 shows the dropdown
      again and leaves no timer to hide it. */
  lemma StrandedTimerBeforeEnter()
    ensures MouseEnter(HoverElapse(TwoLeaves(), 150), 150).shown == Some(true)
    ensures MouseEnter(HoverElapse(TwoLeaves(), 150), 150).timers == map[]
  {
    TwoLeavesTimers();
    var fired := HoverElapse(TwoLeaves(), 150);
    assert fired.timers == map[1 := 160];
  }
}

=== FILE: js_string.dfy ===
/** The JavaScript string primitives the page script leans on: values that may be
    `undefined`/`null`, `String.prototype.split` with a one-character separator,
    the ECMAScript white-space set shared by `String.prototype.trim` and the
    regular-expression class `\s`, and `trim` itself. */
module JsString {

  /** A DOM attribute, `dataset` entry or storage lookup that may be absent. */
  datatype Option<+T> = None | Some(value: T)

  /** ECMAScript WhiteSpace and LineTerminator code points (ECMA-262, sections
      12.2 and 12.3). `trim()` strips exactly these and `\s` matches exactly these. */
  predicate IsSpace(c: char)
  {
    || c == '\t' || c == '\n' || c == '\U{B}' || c == '\U{C}' || c == '\r' || c == ' '
    || c == '\U{A0}' || c == '\U{1680}'
    || ('\U{2000}' <= c <= '\U{200A}')
    || c == '\U{2028}' || c == '\U{2029}' || c == '\U{202F}' || c == '\U{205F}'
    || c == '\U{3000}' || c == '\U{FEFF}'
  }

  /** Every character of `s` is white space (vacuously true of ""). */
  predicate Blank(s: string)
  {
    forall i :: 0 <= i < |s| ==> IsSpace(s[i])
  }

  // ---------------------------------------------------------------- split

  /** `s.split(sep)` for a one-character separator: always at least one piece,
      adjacent separators give empty pieces, and no piece holds the separator. */
  function Split(s: string, sep: char): (r: seq<string>)
    ensures |r| >= 1
    ensures forall i :: 0 <= i < |r| ==> sep !in r[i]
  {
    if |s| == 0 then [""]
    else
      var rest := Split(s[1..], sep);
      if s[0] == sep then [""] + rest
      else [[s[0]] + rest[0]] + rest[1..]
  }

  /** `parts.join(sep)`: the pieces with one separator between neighbours. */
  function Join(parts: seq<string>, sep: char): string
  {
    if |parts| == 0 then ""
    else if |parts| == 1 then parts[0]
    else parts[0] + [sep] + Join(parts[1..], sep)
  }

  /** Splitting loses nothing: joining the pieces back gives the original string. */
  lemma {:induction false} JoinSplit(s: string, sep: char)
    ensures Join(Split(s, sep), sep) == s
  {
    if |s| > 0 {
      var rest := Split(s[1..], sep);
      JoinSplit(s[1..], sep);
      if s[0] == sep {
        assert Split(s, sep) == [""] + rest;
        assert ([""] + rest)[1..] == rest;
        assert s == [sep] + s[1..];
      } else if |rest| == 1 {
        assert Split(s, sep) == [[s[0]] + rest[0]];
        assert s == [s[0]] + s[1..];
      } else {
        var parts := [[s[0]] + rest[0]] + rest[1..];
        assert Split(s, sep) == parts;
        assert parts[1..] == rest[1..];
        assert Join(rest, sep) == rest[0] + [sep] + Join(rest[1..], sep);
        assert s == [s[0]] + s[1..];
      }
    }
  }

  /** A string without the separator is a single piece. */
  lemma {:induction false} SplitNoSeparator(p: string, sep: char)
    requires sep !in p
    ensures Split(p, sep) == [p]
  {
    if |p| > 0 {
      SplitNoSeparator(p[1..], sep);
      assert p == [p[0]] + p[1..];
    }
  }

  /** A separator-free head followed by a separator splits off as the first piece. */
  lemma {:induction false} SplitHead(p: string, sep: char, tail: string)
    requires sep !in p
    ensures Split(p + [sep] + tail, sep) == [p] + Split(tail, sep)
  {
    var s := p + [sep] + tail;
    if |p| == 0 {
      assert s == [sep] + tail;
      assert s[1..] == tail;
    } else {
      assert s[1..] == p[1..] + [sep] + tail;
      SplitHead(p[1..], sep, tail);
      var rest := Split(s[1..], sep);
      assert rest == [p[1..]] + Split(tail, sep);
      assert [p[0]] + p[1..] == p;
    }
  }

  /** Joining separator-free pieces and splitting again gives the pieces back. */
  lemma {:induction false} SplitJoin(parts: seq<string>, sep: char)
    requires |parts| >= 1
    requires forall i :: 0 <= i < |parts| ==> sep !in parts[i]
    ensures Split(Join(parts, sep), sep) == parts
  {
    if |parts| == 1 {
      SplitNoSeparator(parts[0], sep);
    } else {
      SplitJoin(parts[1..], sep);
      SplitHead(parts[0], sep, Join(parts[1..], sep));
      assert [parts[0]] + parts[1..] == parts;
    }
  }

  // ---------------------------------------------------------------- trim

  /** Leading white space removed: a suffix of `s`, everything dropped is white
      space, and what is left does not start with white space. */
  function TrimStart(s: string): (r: string)
    ensures |r| <= |s| && r == s[|s| - |r|..]
    ensures forall i :: 0 <= i < |s| - |r| ==> IsSpace(s[i])
    ensures r == [] || !IsSpace(r[0])
  {
    if |s| > 0 && IsSpace(s[0]) then TrimStart(s[1..]) else s
  }

  /** Trailing white space removed: a prefix of `s`, everything dropped is white
      space, and what is left does not end with white space. */
  function TrimEnd(s: string): (r: string)
    ensures |r| <= |s| && r == s[..|r|]
    ensures forall i :: |r| <= i < |s| ==> IsSpace(s[i])
    ensures r == [] || !IsSpace(r[|r| - 1])
  {
    if |s| > 0 && IsSpace(s[|s| - 1]) then TrimEnd(s[..|s| - 1]) else s
  }

  /** `s.trim()`: the slice of `s` left once white space is cut from both ends.
      It is empty exactly when `s` is all white space; otherwise it starts and
      ends with a non-space character. */
  function Trim(s: string): (r: string)
    ensures exists a, b :: 0 <= a <= b <= |s| && r == s[a..b] && Blank(s[..a]) && Blank(s[b..])
    ensures r == [] <==> Blank(s)
    ensures r != [] ==> !IsSpace(r[0]) && !IsSpace(r[|r| - 1])
  {
    var front := TrimStart(s);
    var r := TrimEnd(front);
    assert r != [] ==> r[0] == front[0];
    assert r == [] ==> front == [];
    var a := |s| - |front|;
    var b := a + |r|;
    assert r == s[a..b];
    assert Blank(s[..a]) by {
      forall i | 0 <= i < a ensures IsSpace(s[..a][i]) {
        assert s[..a][i] == s[i];
      }
    }
    assert Blank(s[b..]) by {
      forall i | 0 <= i < |s| - b ensures IsSpace(s[b..][i]) {
        assert s[b..][i] == front[|r| + i];
      }
    }
    r
  }

  /** Trimming is idempotent. */
  lemma TrimIdempotent(s: string)
    ensures Trim(Trim(s)) == Trim(s)
  {
    var t := Trim(s);
    if t != [] {
      assert TrimStart(t) == t;
      assert TrimEnd(t) == t;
    }
  }
}

=== FILE: mobile_menu.dfy ===
/** The click handlers of `initMobileMenu` (js/main.js): the toggle button flips
    the `active` class on the menu and on itself and locks body scrolling while
    the menu is open; any link inside the menu closes everything. */
module MobileMenu {

  /** The `active` class on the menu and on the toggle button, and the inline
      `document.body.style.overflow` value. */
  datatype MenuState = MenuState(menuActive: bool, toggleActive: bool, overflow: string)

  datatype MenuEvent = ToggleClick | LinkClick

  /** Scroll lock value written while the menu is open. */
  const Locked: string := "hidden"

  /** Page load: neither element is active and no inline overflow is set. */
  const Initial: MenuState := MenuState(false, false, "")

  /** One click. `classList.toggle` flips each element's class on its own, and the
      overflow follows the menu's class as it stands after the flip. */
  function Step(s: MenuState, e: MenuEvent): MenuState
  {
    match e
    case ToggleClick =>
      var open := !s.menuActive;
      MenuState(open, !s.toggleActive, if open then Locked else "")
    case LinkClick =>
      MenuState(false, false, "")
  }

  /** The state after a sequence of clicks, oldest first. */
  function Run(s: MenuState, events: seq<MenuEvent>): MenuState
  {
    if |events| == 0 then s
    else Step(Run(s, events[..|events| - 1]), events[|events| - 1])
  }

  /** Toggle clicks since the most recent link click (or since page load). */
  function TogglesSinceClose(events: seq<MenuEvent>): nat
  {
    if |events| == 0 then 0
    else if events[|events| - 1] == LinkClick then 0
    else TogglesSinceClose(events[..|events| - 1]) + 1
  }

  /** The open state, as reached by one toggle click from the initial state. */
  const Open: MenuState := MenuState(true, true, Locked)

  /** Reference behaviour: after any click history the menu is open (with button
      active and scroll locked) exactly when an odd number of toggle clicks has
      happened since the last link click, and fully closed otherwise. */
  lemma {:induction false} RunIsParityOfToggles(events: seq<MenuEvent>)
    ensures Run(Initial, events)
              == if TogglesSinceClose(events) % 2 == 1 then Open else Initial
  {
    if |events| > 0 {
      RunIsParityOfToggles(events[..|events| - 1]);
    }
  }

  /** Menu and button agree, and the body is locked exactly while the menu is open. */
  predicate Synchronised(s: MenuState)
  {
    s.menuActive == s.toggleActive && s.overflow == (if s.menuActive then Locked else "")
  }

  /** Either click preserves synchronisation; a link click establishes it from any
      state, and a toggle click always locks scrolling iff the menu ends up open. */
  lemma StepSynchronised(s: MenuState, e: MenuEvent)
    ensures Synchronised(s) ==> Synchronised(Step(s, e))
    ensures e == LinkClick ==> Step(s, e) == Initial
    ensures e == ToggleClick ==> (Step(s, e).overflow == Locked <==> Step(s, e).menuActive)
  {
  }

  /** On a synchronised state two toggle clicks undo each other, and a link click
      is idempotent from any state. */
  lemma ToggleTwiceRestores(s: MenuState)
    requires Synchronised(s)
    ensures Step(Step(s, ToggleClick), ToggleClick) == s
    ensures Step(Step(s, LinkClick), LinkClick) == Step(s, LinkClick)
  {
  }
}

=== FILE: navbar.dfy ===
/** The scroll handler of `initNavbar` (js/main.js): on each scroll event the
    navbar gets the `scrolled` class past 50px, is translated off-screen while
    scrolling down past 200px, and remembers the offset for the next event. */
module Navbar {

  /** The handler's memory and the two pieces of navbar presentation it writes:
      `scrolled` is the class, `hidden` is `transform: translateY(-100%)`
      (as opposed to `translateY(0)`). */
  datatype NavState = NavState(lastScroll: int, scrolled: bool, hidden: bool)

  /** Offset past which the navbar is elevated. */
  const ScrolledThreshold: int := 50

  /** Offset past which scrolling down hides the navbar. */
  const HideThreshold: int := 200

  /** Before the first scroll event: `lastScroll = 0`, no class, no transform. */
  const Initial: NavState := NavState(0, false, false)

  /** One scroll event delivering `window.pageYOffset == current`. */
  function OnScroll(s: NavState, current: int): NavState
  {
    NavState(
      current,
      current > ScrolledThreshold,
      current > s.lastScroll && current > HideThreshold)
  }

  /** The state after a whole history of scroll events, oldest first. */
  function Run(s: NavState, offsets: seq<int>): NavState
  {
    if |offsets| == 0 then s
    else OnScroll(Run(s, offsets[..|offsets| - 1]), offsets[|offsets| - 1])
  }

  /** The offset the handler compares the latest event against: the one before it,
      or the starting memory when there is a single event. */
  function Previous(s: NavState, offsets: seq<int>): int
    requires |offsets| >= 1
  {
    if |offsets| == 1 then s.lastScroll else offsets[|offsets| - 2]
  }

  /** After any non-empty history, the navbar is elevated iff the latest offset is
      past 50, hidden iff the latest offset is past 200 and greater than the one
      before it, and the remembered offset is the latest one: nothing older than the
      last two events matters. */
  lemma {:induction false} RunDecidedByLastTwo(s: NavState, offsets: seq<int>)
    requires |offsets| >= 1
    ensures var last := offsets[|offsets| - 1];
            var r := Run(s, offsets);
            && r.lastScroll == last
            && (r.scrolled <==> last > ScrolledThreshold)
            && (r.hidden <==> last > Previous(s, offsets) && last > HideThreshold)
  {
    var n := |offsets|;
    if n >= 2 {
      var prefix := offsets[..n - 1];
      RunDecidedByLastTwo(s, prefix);
      assert prefix[|prefix| - 1] == offsets[n - 2];
    }
  }

  /** What every state the page can reach satisfies: the class agrees with the
      remembered offset, and a hidden navbar is always also elevated. */
  predicate Coherent(s: NavState)
  {
    && (s.scrolled <==> s.lastScroll > ScrolledThreshold)
    && (s.hidden ==> s.scrolled && s.lastScroll > HideThreshold)
  }

  /** Coherence holds from page load through any scroll history. */
  lemma {:induction false} ReachableCoherent(offsets: seq<int>)
    ensures Coherent(Run(Initial, offsets))
  {
    if |offsets| > 0 {
      ReachableCoherent(offsets[..|offsets| - 1]);
    }
  }

  /** Scrolling up, or staying put, always brings the navbar back; a repeated
      offset in particular never leaves it hidden. */
  lemma NotDownwardShows(s: NavState, current: int)
    ensures current <= s.lastScroll ==> !OnScroll(s, current).hidden
    ensures OnScroll(OnScroll(s, current), current)
              == OnScroll(s, current).(hidden := false)
  {
  }
}

=== FILE: pricing.dfy ===
/** The click handler of `initPricingToggle` (js/main.js): the switch flips its
    `active` class (and the two period labels', when present), and every price
    element carrying both a monthly and an annual value is rewritten to show the
    amount of the period the switch now selects. */
module Pricing {
  import opened JsString

  datatype Period = Monthly | Annual

  /** A `.pricing-price`: its `data-monthly` and `data-annual` values and its
      current `innerHTML`. */
  datatype PriceTag = PriceTag(monthly: Option<string>, annual: Option<string>, html: string)

  /** The switch's `active` class, the `active` class of the `.pricing-monthly` and
      `.pricing-annual` labels (`None` when the page has no such label), and the
      price elements in document order. */
  datatype PricingState = PricingState(
    switchActive: bool,
    monthlyLabel: Option<bool>,
    annualLabel: Option<bool>,
    prices: seq<PriceTag>)

  const YearSuffix: string := "<span>/year</span>"
  const MonthSuffix: string := "<span>/month</span>"

  /** An active switch selects the annual price. */
  function PeriodOf(switchActive: bool): Period
  {
    if switchActive then Annual else Monthly
  }

  function Suffix(p: Period): string
  {
    match p
    case Monthly => MonthSuffix
    case Annual => YearSuffix
  }

  /** The markup written for an amount: `$` + amount + the period's unit span. */
  function Render(p: Period, amount: string): string
  {
    "$" + amount + Suffix(p)
  }

  /** `s` without the trailing `suffix`, when it ends with it. */
  function StripSuffix(s: string, suffix: string): Option<string>
  {
    if |s| >= |suffix| && s[|s| - |suffix|..] == suffix then Some(s[..|s| - |suffix|])
    else None
  }

  lemma StripSuffixOf(amount: string, suffix: string)
    ensures StripSuffix(amount + suffix, suffix) == Some(amount)
  {
    var s := amount + suffix;
    assert s[|s| - |suffix|..] == suffix;
    assert s[..|s| - |suffix|] == amount;
  }

  lemma StripSuffixInverse(s: string, suffix: string, amount: string)
    requires StripSuffix(s, suffix) == Some(amount)
    ensures s == amount + suffix
  {
    assert s == s[..|s| - |suffix|] + s[|s| - |suffix|..];
  }

  /** A monthly rendering never ends in the yearly span: the character where the
      yearly span would begin is the `s` of the monthly `<span>`. */
  lemma MonthIsNotYear(amount: string)
    ensures StripSuffix(amount + MonthSuffix, YearSuffix) == None
  {
    var s := amount + MonthSuffix;
    if |s| >= |YearSuffix| {
      assert s[|s| - |YearSuffix|] == MonthSuffix[1];
      assert MonthSuffix[1] == 's' && YearSuffix[0] == '<';
    }
  }

  /** Reads markup of the rendered shape back into its period and amount. */
  function Parse(html: string): Option<(Period, string)>
  {
    if |html| == 0 || html[0] != '$' then None
    else
      match StripSuffix(html[1..], YearSuffix)
      case Some(amount) => Some((Annual, amount))
      case None =>
        match StripSuffix(html[1..], MonthSuffix)
        case Some(amount) => Some((Monthly, amount))
        case None => None
  }

  /** Rendered markup reads back as the period and amount it was built from, so
      the text shown identifies both. */
  lemma ParseRender(p: Period, amount: string)
    ensures Parse(Render(p, amount)) == Some((p, amount))
  {
    var html := Render(p, amount);
    assert html[1..] == amount + Suffix(p);
    StripSuffixOf(amount, Suffix(p));
    if p == Monthly {
      MonthIsNotYear(amount);
    }
  }

  /** Markup that parses is exactly the rendering of what it parses to. */
  lemma RenderParse(html: string)
    requires Parse(html).Some?
    ensures html == Render(Parse(html).value.0, Parse(html).value.1)
  {
    var (p, amount) := Parse(html).value;
    StripSuffixInverse(html[1..], Suffix(p), amount);
    assert html == [html[0]] + html[1..];
  }

  /** An element the handler rewrites: both values are present and non-empty. */
  predicate Priced(t: PriceTag)
  {
    t.monthly.Some? && t.monthly.value != "" && t.annual.Some? && t.annual.value != ""
  }

  /** The amount a priced element holds for a period. */
  function Amount(t: PriceTag, p: Period): string
    requires Priced(t)
  {
    match p
    case Monthly => t.monthly.value
    case Annual => t.annual.value
  }

  /** One price element after the handler ran with the switch in `switchActive`. */
  function Reprice(t: PriceTag, switchActive: bool): PriceTag
  {
    if Priced(t) then
      var p := PeriodOf(switchActive);
      t.(html := Render(p, Amount(t, p)))
    else t
  }

  /** `classList.toggle` on an element that may be missing. */
  function Flip(cls: Option<bool>): Option<bool>
  {
    match cls
    case None => None
    case Some(b) => Some(!b)
  }

  /** Every priced element displays, and reads back as, the amount of the period
      the switch selects. */
  predicate Displays(s: PricingState)
  {
    forall k :: 0 <= k < |s.prices| && Priced(s.prices[k]) ==>
      Parse(s.prices[k].html) == Some((PeriodOf(s.switchActive), Amount(s.prices[k], PeriodOf(s.switchActive))))
  }

  /** One click on the switch. The switch flips, each present label flips, and
      afterwards every priced element shows the selected period's amount while
      every other element, and every data value, is untouched. */
  function Click(s: PricingState): (r: PricingState)
    ensures r.switchActive == !s.switchActive
    ensures r.monthlyLabel.Some? == s.monthlyLabel.Some?
    ensures r.monthlyLabel.Some? ==> r.monthlyLabel.value == !s.monthlyLabel.value
    ensures r.annualLabel.Some? == s.annualLabel.Some?
    ensures r.annualLabel.Some? ==> r.annualLabel.value == !s.annualLabel.value
    ensures |r.prices| == |s.prices|
    ensures forall k :: 0 <= k < |r.prices| ==>
              && r.prices[k].monthly == s.prices[k].monthly
              && r.prices[k].annual == s.prices[k].annual
              && (!Priced(s.prices[k]) ==> r.prices[k] == s.prices[k])
    ensures Displays(r)
  {
    var active := !s.switchActive;
    var r := PricingState(
      active,
      Flip(s.monthlyLabel),
      Flip(s.annualLabel),
      seq(|s.prices|, k requires 0 <= k < |s.prices| => Reprice(s.prices[k], active)));
    assert Displays(r) by {
      forall k | 0 <= k < |r.prices| && Priced(r.prices[k])
        ensures Parse(r.prices[k].html) == Some((PeriodOf(active), Amount(r.prices[k], PeriodOf(active))))
      {
        ParseRender(PeriodOf(active), Amount(s.prices[k], PeriodOf(active)));
      }
    }
    r
  }

  /** Once the prices show the selected period, two clicks restore the state
      exactly; from any state, the third click repeats the first. */
  lemma ClickTwiceRestores(s: PricingState)
    ensures Displays(s) ==> Click(Click(s)) == s
    ensures Click(Click(Click(s))) == Click(s)
  {
    var c2 := Click(Click(s));
    assert c2.monthlyLabel == s.monthlyLabel;
    assert c2.annualLabel == s.annualLabel;
    if Displays(s) {
      forall k | 0 <= k < |s.prices| ensures c2.prices[k] == s.prices[k] {
        var t := s.prices[k];
        if Priced(t) {
          RenderParse(t.html);
        }
      }
      assert c2.prices == s.prices;
    }
    var c1 := Click(s);
    var c3 := Click(c2);
    assert c3.prices == c1.prices;
  }
}

=== FILE: product_filter.dfy ===
/** The tab click handler of `initProductFilter` (js/main.js): the clicked tab
    becomes the only active one, and every product card is shown (with the
    fade-in animation) or removed from layout depending on whether the tab's
    category is "all" or one of the card's space-separated categories. */
module ProductFilter {
  import opened JsString

  /** A `.category-tab`: its `data-category` (absent means `undefined`) and
      whether it carries the `active` class. */
  datatype Tab = Tab(category: Option<string>, active: bool)

  /** A `.product-card`: its `data-category` attribute, whether its inline
      `display` is `none`, and whether the `fadeInUp` animation has been set. */
  datatype Product = Product(category: Option<string>, hidden: bool, fadeIn: bool)

  datatype Catalog = Catalog(tabs: seq<Tab>, products: seq<Product>)

  /** The sentinel category that shows every product. */
  const All: string := "all"

  /** The card's category tokens: the attribute split at every single space, or
      no tokens at all when the attribute is missing. An empty attribute still
      yields one empty token. */
  function Tokens(attribute: Option<string>): seq<string>
  {
    match attribute
    case None => []
    case Some(v) => Split(v, ' ')
  }

  /** A tab selects a card when the tab's category is "all" or is one of the
      card's tokens. A tab without `data-category` has no category, so it
      matches no token. */
  predicate Selects(category: Option<string>, attribute: Option<string>)
  {
    category == Some(All) || (category.Some? && category.value in Tokens(attribute))
  }

  /** The card after one filter pass: shown and animated when selected,
      `display: none` otherwise (the animation property is then left alone). */
  function Filter(p: Product, category: Option<string>): Product
  {
    if Selects(category, p.category) then p.(hidden := false, fadeIn := true)
    else p.(hidden := true)
  }

  /** A click on tab `i`. Exactly tab `i` is active afterwards, tabs and cards keep
      their categories, and a card is visible iff the tab selects it. */
  function ClickTab(c: Catalog, i: nat): (r: Catalog)
    requires i < |c.tabs|
    ensures |r.tabs| == |c.tabs| && |r.products| == |c.products|
    ensures forall j :: 0 <= j < |r.tabs| ==> (r.tabs[j].active <==> j == i)
    ensures forall j :: 0 <= j < |r.tabs| ==> r.tabs[j].category == c.tabs[j].category
    ensures forall k :: 0 <= k < |r.products| ==>
              && r.products[k].category == c.products[k].category
              && (!r.products[k].hidden <==> Selects(c.tabs[i].category, c.products[k].category))
              && (r.products[k].fadeIn <==> !r.products[k].hidden || c.products[k].fadeIn)
  {
    var category := c.tabs[i].category;
    Catalog(
      seq(|c.tabs|, j requires 0 <= j < |c.tabs| => c.tabs[j].(active := j == i)),
      seq(|c.products|, k requires 0 <= k < |c.products| => Filter(c.products[k], category)))
  }

  /** Clicking the tab that was just clicked changes nothing further. */
  lemma ClickTabIdempotent(c: Catalog, i: nat)
    requires i < |c.tabs|
    ensures ClickTab(ClickTab(c, i), i) == ClickTab(c, i)
  {
    var r := ClickTab(c, i);
    var rr := ClickTab(r, i);
    assert rr.tabs == r.tabs;
    assert rr.products == r.products;
  }

  /** The "all" tab shows every card, and a card without `data-category` is shown
      under the "all" tab only. */
  lemma AllAndMissingCategory(category: Option<string>, attribute: Option<string>)
    ensures category == Some(All) ==> Selects(category, attribute)
    ensures attribute == None ==> (Selects(category, attribute) <==> category == Some(All))
  {
  }

  /** When a card's attribute is the space-joined list of its category tags, none
      of which holds a space, a named tab shows the card iff the tab is "all" or
      one of those tags: the set view of categories. */
  lemma SelectsTagSet(category: string, tags: seq<string>)
    requires |tags| >= 1
    requires forall t :: 0 <= t < |tags| ==> ' ' !in tags[t]
    ensures Selects(Some(category), Some(Join(tags, ' '))) <==> category == All || category in tags
  {
    SplitJoin(tags, ' ');
  }

  /** Consecutive spaces in an attribute make an empty token, so a tab whose
      `data-category` is "" shows such a card. */
  lemma DoubleSpaceYieldsEmptyToken()
    ensures Selects(Some(""), Some("a  b"))
    ensures !Selects(Some(""), Some("a b"))
  {
    var three: seq<string> := ["a", "", "b"];
    assert Join(three[2..], ' ') == "b";
    assert Join(three[1..], ' ') == " b";
    assert Join(three, ' ') == "a  b";
    SplitJoin(three, ' ');
    var two: seq<string> := ["a", "b"];
    assert Join(two[1..], ' ') == "b";
    assert Join(two, ' ') == "a b";
    SplitJoin(two, ' ');
  }
}

=== FILE: rate_limit.dfy ===
/** `debounce` and `throttle` (js/main.js) as discrete-event state machines with
    an explicit clock. The outside world either invokes the wrapper at a time or
    lets time pass. Timers run between tasks, never inside one: a call at `t`
    finds every timer due strictly before `t` already fired, while a timer due at
    `t` itself fires first only when the history lets time pass to `t` before the
    call (an `Elapse(t)` event). */
module RateLimit {
  import opened JsString
  import opened Timeline

  /** The delay `setTimeout` actually waits for a requested `ms`: the argument is
      converted to a signed 32-bit integer (wrapping modulo 2^32), and a negative
      result is treated as zero. */
  function Delay(ms: int): (r: nat)
    ensures r < 0x8000_0000
    ensures 0 <= ms < 0x8000_0000 ==> r == ms
  {
    var w := ms % 0x1_0000_0000;
    var signed := if w >= 0x8000_0000 then w - 0x1_0000_0000 else w;
    if signed < 0 then 0 else signed
  }

  /** Requests that differ by a multiple of 2^32 wait equally long; 2^31 ms and
      requests from -2^31 to -1 ms do not wait at all; 2^32 + 100 ms waits 100 ms. */
  lemma DelayWraps(ms: int, k: int)
    ensures Delay(ms + k * 0x1_0000_0000) == Delay(ms)
    ensures ms < 0 && ms >= -0x8000_0000 ==> Delay(ms) == 0
    ensures Delay(0x8000_0000) == 0 && Delay(0x1_0000_0000 + 100) == 100
  {
    assert (ms + k * 0x1_0000_0000) % 0x1_0000_0000 == ms % 0x1_0000_0000;
  }

  /** One execution of the wrapped function: when it ran and with which arguments. */
  datatype Execution<A> = Execution(at: int, args: A)

  /** A call of the wrapper, or time passing up to `at`. */
  datatype Event<A> = Invoke(at: int, args: A) | Elapse(at: int)

  /** When an event happens. */
  function EventTime<A>(e: Event<A>): int
  {
    e.at
  }

  /** Consecutive executions are at least `gap` apart. */
  predicate Spaced<A>(runs: seq<Execution<A>>, gap: int)
  {
    forall i :: 0 < i < |runs| ==> runs[i - 1].at + gap <= runs[i].at
  }


  // ================================================================ debounce

  /** The closure state of `debounce(func, wait)`: the clock, the one pending
      timer (the time it fires and the arguments `later` captured), and the
      executions of `func` so far. */
  datatype Debouncer<A> = Debouncer(wait: int, now: int, pending: Option<Execution<A>>, ran: seq<Execution<A>>)

  function NewDebouncer<A>(wait: int, now: int): Debouncer<A>
  {
    Debouncer(wait, now, None, [])
  }

  /** Time passes to `t`; the pending call runs at its deadline if that has come. */
  function DebounceElapse<A>(d: Debouncer<A>, t: int): Debouncer<A>
    requires d.now <= t
  {
    if d.pending.Some? && d.pending.value.at <= t then
      Debouncer(d.wait, t, None, d.ran + [d.pending.value])
    else d.(now := t)
  }

  /** A call at `t`: a pending call due strictly before `t` has run by now; then
      `clearTimeout` drops whatever is still pending (a call due at `t` itself
      included) and a fresh one is scheduled the effective delay of `wait` later,
      with these arguments.
      At most one call is ever pending, and it is always the latest. */
  function DebounceInvoke<A>(d: Debouncer<A>, t: int, args: A): (r: Debouncer<A>)
    requires d.now <= t
    ensures r.now == t && r.wait == d.wait
    ensures r.pending == Some(Execution(t + Delay(d.wait), args))
    ensures d.pending.Some? && d.pending.value.at < t ==> r.ran == d.ran + [d.pending.value]
    ensures d.pending.Some? && t <= d.pending.value.at ==> r.ran == d.ran
    ensures d.pending.None? ==> r.ran == d.ran
  {
    var settled := if d.pending.Some? && d.pending.value.at < t then DebounceElapse(d, t) else d.(now := t);
    settled.(pending := Some(Execution(t + Delay(d.wait), args)))
  }

  function DebounceStep<A>(d: Debouncer<A>, e: Event<A>): Debouncer<A>
    requires d.now <= e.at
  {
    match e
    case Invoke(t, args) => DebounceInvoke(d, t, args)
    case Elapse(t) => DebounceElapse(d, t)
  }

  /** The state after a chronological sequence of events. */
  function DebounceRun<A>(d: Debouncer<A>, events: seq<Event<A>>): (r: Debouncer<A>)
    requires Chronological(d.now, Times(events, EventTime))
    ensures r.wait == d.wait
    ensures r.now == if |events| == 0 then d.now else events[|events| - 1].at
  {
    if |events| == 0 then d
    else
      EventsPrefix(d.now, events, EventTime);
      DebounceStep(DebounceRun(d, events[..|events| - 1]), events[|events| - 1])
  }

  /** Executions are the effective delay of `wait` apart and in the past; the
      pending call is not overdue and is at least that delay after the last
      execution. */
  predicate DebounceInv<A>(d: Debouncer<A>)
  {
    && Spaced(d.ran, Delay(d.wait))
    && (|d.ran| > 0 ==> d.ran[|d.ran| - 1].at <= d.now)
    && (d.pending.Some? ==>
          && d.now <= d.pending.value.at
          && (|d.ran| > 0 ==> d.ran[|d.ran| - 1].at + Delay(d.wait) <= d.pending.value.at))
  }

  lemma DebounceStepInv<A>(d: Debouncer<A>, e: Event<A>)
    requires d.now <= e.at && DebounceInv(d)
    ensures DebounceInv(DebounceStep(d, e))
  {
  }

  /** Along any history, a debounced function never runs twice within the effective
      delay of `wait`. */
  lemma {:induction false} DebounceSpaced<A>(d: Debouncer<A>, events: seq<Event<A>>)
    requires Chronological(d.now, Times(events, EventTime)) && DebounceInv(d)
    ensures DebounceInv(DebounceRun(d, events))
    ensures Spaced(DebounceRun(d, events).ran, Delay(d.wait))
  {
    if |events| > 0 {
      EventsPrefix(d.now, events, EventTime);
      DebounceSpaced(d, events[..|events| - 1]);
      DebounceStepInv(DebounceRun(d, events[..|events| - 1]), events[|events| - 1]);
    }
  }

  /** A second call no later than the first one's deadline cancels it: the second
      call runs nothing, so the first call's arguments never reach the wrapped
      function, and only the second is pending. */
  lemma DebounceBurst<A>(d: Debouncer<A>, t1: int, a: A, t2: int, b: A)
    requires d.now <= t1 <= t2 <= t1 + Delay(d.wait)
    ensures var first := DebounceInvoke(d, t1, a);
            var r := DebounceInvoke(first, t2, b);
            && r.ran == first.ran
            && |r.ran| <= |d.ran| + 1
            && r.pending == Some(Execution(t2 + Delay(d.wait), b))
  {
  }

  /** With a zero wait, two calls in the same task run only the second, once its
      timer gets to fire. */
  lemma DebounceZeroWaitBurst()
    ensures var d := DebounceInvoke(DebounceInvoke(NewDebouncer<int>(0, 0), 0, 1), 0, 2);
            && d.ran == []
            && DebounceElapse(d, 0).ran == [Execution(0, 2)]
  {
  }

  predicate OnlyElapses<A>(events: seq<Event<A>>)
  {
    forall i :: 0 <= i < |events| ==> events[i].Elapse?
  }

  /** After the last call, letting time pass runs it exactly once, at its deadline
      and with its arguments, as soon as the clock reaches that deadline. */
  lemma {:induction false} DebounceQuietFires<A>(d: Debouncer<A>, events: seq<Event<A>>)
    requires Chronological(d.now, Times(events, EventTime)) && OnlyElapses(events)
    requires d.pending.Some? && d.now <= d.pending.value.at
    ensures var r := DebounceRun(d, events);
            var due := |events| > 0 && d.pending.value.at <= events[|events| - 1].at;
            && (due ==> r.ran == d.ran + [d.pending.value] && r.pending == None)
            && (!due ==> r.ran == d.ran && r.pending == d.pending)
  {
    if |events| > 0 {
      EventsPrefix(d.now, events, EventTime);
      var prefix := events[..|events| - 1];
      assert OnlyElapses(prefix) by {
        forall i | 0 <= i < |prefix| ensures prefix[i].Elapse? {
          assert prefix[i] == events[i];
        }
      }
      DebounceQuietFires(d, prefix);
      assert events[|events| - 1].Elapse?;
    }
  }

  /** Calls at 0, 10 and 20 with a 30 ms wait, then quiet: only the call made at 20
      runs, at 50. */
  lemma DebounceExample()
    ensures var d := NewDebouncer<string>(30, 0);
            DebounceElapse(DebounceInvoke(DebounceInvoke(DebounceInvoke(d, 0, "a"), 10, "b"), 20, "c"), 100).ran
              == [Execution(50, "c")]
  {
  }

  // ================================================================ throttle

  /** The closure state of `throttle(func, limit)`: the clock, `inThrottle` with the
      time its reset timer fires (`Some` exactly while `inThrottle` is true), and the
      executions of `func` so far. */
  datatype Throttler<A> = Throttler(limit: int, now: int, reopensAt: Option<int>, ran: seq<Execution<A>>)

  function NewThrottler<A>(limit: int, now: int): Throttler<A>
  {
    Throttler(limit, now, None, [])
  }

  /** Time passes to `t`; the reset timer clears `inThrottle` if it has come due. */
  function ThrottleElapse<A>(s: Throttler<A>, t: int): Throttler<A>
    requires s.now <= t
  {
    if s.reopensAt.Some? && s.reopensAt.value <= t then s.(now := t, reopensAt := None)
    else s.(now := t)
  }

  /** A call at `t` runs the function at once iff the window is not open at `t`
      (no window, or its reset timer was due strictly before `t`), and then opens
      a window of the effective delay of `limit`; a call inside the window is
      dropped and leaves everything (the window's end included) as it was. */
  function ThrottleInvoke<A>(s: Throttler<A>, t: int, args: A): (r: Throttler<A>)
    requires s.now <= t
    ensures var open := s.reopensAt.None? || s.reopensAt.value < t;
            && r.now == t && r.limit == s.limit
            && (open ==> r.ran == s.ran + [Execution(t, args)] && r.reopensAt == Some(t + Delay(s.limit)))
            && (!open ==> r.ran == s.ran && r.reopensAt == s.reopensAt)
  {
    var e := if s.reopensAt.Some? && s.reopensAt.value < t then ThrottleElapse(s, t) else s.(now := t);
    if e.reopensAt.None? then
      e.(reopensAt := Some(t + Delay(s.limit)), ran := e.ran + [Execution(t, args)])
    else e
  }

  function ThrottleStep<A>(s: Throttler<A>, e: Event<A>): Throttler<A>
    requires s.now <= e.at
  {
    match e
    case Invoke(t, args) => ThrottleInvoke(s, t, args)
    case Elapse(t) => ThrottleElapse(s, t)
  }

  function ThrottleRun<A>(s: Throttler<A>, events: seq<Event<A>>): (r: Throttler<A>)
    requires Chronological(s.now, Times(events, EventTime))
    ensures r.limit == s.limit
    ensures r.now == if |events| == 0 then s.now else events[|events| - 1].at
  {
    if |events| == 0 then s
    else
      EventsPrefix(s.now, events, EventTime);
      ThrottleStep(ThrottleRun(s, events[..|events| - 1]), events[|events| - 1])
  }

  /** Executions are the effective delay of `limit` apart and in the past; an
      open window ends exactly that delay after the last execution, and a closed
      one has already ended. */
  predicate ThrottleInv<A>(s: Throttler<A>)
  {
    && Spaced(s.ran, Delay(s.limit))
    && (|s.ran| > 0 ==> s.ran[|s.ran| - 1].at <= s.now)
    && (s.reopensAt.Some? ==> |s.ran| > 0 && s.reopensAt.value == s.ran[|s.ran| - 1].at + Delay(s.limit))
    && (s.reopensAt.None? && |s.ran| > 0 ==> s.ran[|s.ran| - 1].at + Delay(s.limit) <= s.now)
  }

  lemma ThrottleStepInv<A>(s: Throttler<A>, e: Event<A>)
    requires s.now <= e.at && ThrottleInv(s)
    ensures ThrottleInv(ThrottleStep(s, e))
  {
  }

  /** Along any history, a throttled function never runs twice within the effective
      delay of `limit`. */
  lemma {:induction false} ThrottleSpaced<A>(s: Throttler<A>, events: seq<Event<A>>)
    requires Chronological(s.now, Times(events, EventTime)) && ThrottleInv(s)
    ensures ThrottleInv(ThrottleRun(s, events))
    ensures Spaced(ThrottleRun(s, events).ran, Delay(s.limit))
  {
    if |events| > 0 {
      EventsPrefix(s.now, events, EventTime);
      ThrottleSpaced(s, events[..|events| - 1]);
      ThrottleStepInv(ThrottleRun(s, events[..|events| - 1]), events[|events| - 1]);
    }
  }

  /** Calls at 0, 10, 20 and 35 with a 30 ms limit: the calls at 0 and 35 run, the
      ones at 10 and 20 are dropped. */
  lemma ThrottleExample()
    ensures var s := NewThrottler<string>(30, 0);
            ThrottleInvoke(ThrottleInvoke(ThrottleInvoke(ThrottleInvoke(s, 0, "a"), 10, "b"), 20, "c"), 35, "d").ran
              == [Execution(0, "a"), Execution(35, "d")]
  {
  }

  /** With a zero limit, a second call in the same task is dropped, while one made
      after the reset timer has had its turn runs. */
  lemma ThrottleZeroLimitBurst()
    ensures var s := ThrottleInvoke(NewThrottler<int>(0, 0), 0, 1);
            && ThrottleInvoke(s, 0, 2).ran == [Execution(0, 1)]
            && ThrottleInvoke(ThrottleElapse(s, 0), 0, 2).ran == [Execution(0, 1), Execution(0, 2)]
  {
  }
}

=== FILE: theme.dfy ===
/** `initThemeToggle` (js/main.js): at start-up the `data-theme` attribute of the
    document root is taken from the saved preference, else set to "dark" when the
    system prefers dark, else left as it was; each click of the toggle switches
    "dark" to "light" and anything else to "dark", and saves the new value. */
module Theme {
  import opened JsString

  const Dark: string := "dark"
  const Light: string := "light"

  /** The root's `data-theme` attribute (absent until someone sets it) and the
      value stored under the `theme` key of local storage. */
  datatype ThemeState = ThemeState(attribute: Option<string>, stored: Option<string>)

  /** A saved value counts only when it is a non-empty string (JavaScript
      truthiness of `localStorage.getItem('theme')`). */
  predicate Usable(saved: Option<string>)
  {
    saved.Some? && saved.value != ""
  }

  /** Start-up with the stored value `saved`, the system's dark preference, and the
      attribute the markup set (if any). Storage is only read. */
  function Startup(saved: Option<string>, systemDark: bool, markup: Option<string>): (r: ThemeState)
    ensures r.stored == saved
    ensures Usable(saved) ==> r.attribute == saved
    ensures !Usable(saved) && systemDark ==> r.attribute == Some(Dark)
    ensures !Usable(saved) && !systemDark ==> r.attribute == markup
  {
    var attribute :=
      if Usable(saved) then saved
      else if systemDark then Some(Dark)
      else markup;
    ThemeState(attribute, saved)
  }

  /** The theme a click switches to. */
  function Opposite(current: Option<string>): string
  {
    if current == Some(Dark) then Light else Dark
  }

  /** One click: the attribute and the store both get the new theme, which is
      "light" exactly when the theme was "dark" and "dark" in every other case,
      including an unset or unrecognised theme. */
  function Toggle(s: ThemeState): (r: ThemeState)
    ensures r.stored == r.attribute
    ensures r.attribute == Some(Light) <==> s.attribute == Some(Dark)
    ensures r.attribute == Some(Dark) <==> s.attribute != Some(Dark)
  {
    var theme := Opposite(s.attribute);
    ThemeState(Some(theme), Some(theme))
  }

  /** Two clicks from "light" or "dark" return to it; from any state the third
      click repeats the first. */
  lemma ToggleTwice(s: ThemeState)
    ensures s.attribute == Some(Light) || s.attribute == Some(Dark) ==>
              Toggle(Toggle(s)).attribute == s.attribute
    ensures Toggle(Toggle(Toggle(s))) == Toggle(s)
  {
  }

  /** A saved preference takes precedence over the system preference. */
  lemma SavedOverridesSystem(saved: Option<string>, markup: Option<string>)
    requires Usable(saved)
    ensures Startup(saved, true, markup) == Startup(saved, false, markup)
  {
  }

  /** Persistence round-trip: reloading the page after a click shows the theme the
      click chose, whatever the system preference and markup. */
  lemma ReloadKeepsChoice(s: ThemeState, systemDark: bool, markup: Option<string>)
    ensures Startup(Toggle(s).stored, systemDark, markup).attribute == Toggle(s).attribute
  {
  }
}

=== FILE: timeline.dfy ===
/** Histories of timed events, shared by the timer-driven models (`RateLimit`,
    `HoverIntent`): the times at which their events happen, in order. */
module Timeline {
  /** Times never go backwards, and none is before `now`. */
  predicate Chronological(now: int, times: seq<int>)
  {
    && (|times| > 0 ==> now <= times[0])
    && forall i :: 0 < i < |times| ==> times[i - 1] <= times[i]
  }

  /** Dropping the latest time keeps a history chronological; the latest time is
      not before `now` nor before the one preceding it. */
  lemma {:induction false} ChronologicalPrefix(now: int, times: seq<int>)
    requires Chronological(now, times) && |times| > 0
    ensures Chronological(now, times[..|times| - 1])
    ensures now <= times[|times| - 1]
    ensures |times| > 1 ==> times[|times| - 2] <= times[|times| - 1]
  {
    var prefix := times[..|times| - 1];
    assert forall i :: 0 <= i < |prefix| ==> prefix[i] == times[i];
    if |times| > 1 {
      ChronologicalPrefix(now, prefix);
    }
  }

  /** The times of a history's events, read off each event by `at`. */
  function Times<E>(events: seq<E>, at: E -> int): (r: seq<int>)
    ensures |r| == |events|
    ensures forall i :: 0 <= i < |events| ==> r[i] == at(events[i])
  {
    seq(|events|, i requires 0 <= i < |events| => at(events[i]))
  }

  /** Dropping the latest event keeps a history in time order, and the latest
      event is not before `now`. */
  lemma EventsPrefix<E>(now: int, events: seq<E>, at: E -> int)
    requires Chronological(now, Times(events, at)) && |events| > 0
    ensures Chronological(now, Times(events[..|events| - 1], at))
    ensures now <= at(events[|events| - 1])
  {
    ChronologicalPrefix(now, Times(events, at));
    assert Times(events[..|events| - 1], at) == Times(events, at)[..|events| - 1];
  }
}
